=== FILE: README.md ===
# Pastebin core, modelled in Dafny

This project models a small Flask pastebin. A client posts text, and the
service stores it under a short random ID with:

- an expiry time;
- an optional "burn after N views" limit;
- a secret deletion token.

The paste can then be read rendered or raw until it expires or runs out of
views, and it can be deleted by anyone holding the token. Lifetime and per-day
counters record creations and views. A separate garbage-collection script
deletes expired rows.

The model replaces the database with an immutable map from paste ID to row.
Every handler becomes a pure transition from a state to a new state plus an
outcome. The modules follow the program:

| module | file | models |
|---|---|---|
| `PasteText` | text.dfy | `paste_stats`: line count, source-line count, UTF-8 size |
| `PasteStore` | store.dfy | the `pastes` row and the helpers `db_getpaste`, `db_deletepaste`, `db_burn`, `db_newpaste` |
| `IdAllocator` | allocator.dfy | `url_collision` and the ID retry loop of `newpaste` |
| `Lifecycle` | lifecycle.dfy | creation checks, the GET and DELETE branches of `viewpaste`/`viewraw`, and `deletepaste` |
| `Counters` | counters.dfy | stats.py: `pastecount`, `pasteview`, `dailystats`, `getstats` |
| `Sweeper` | sweeper.dfy | gc.py: the expiry sweep |
| `Handlers` | handlers.dfy | the route handlers over pastes and counters together, with their responses |

Some inputs are not computed by the model. Each one becomes a parameter:

- **Random ID draws.** Each call to `choice` consumes the next number `n` of a
  stream `rolls` and yields `alphabet[n % |alphabet|]`.
- **The deletion token.** It is an opaque string.
- **The clock.** Time is `real` seconds. The current UTC date is a day number.
- **Parsing.** What `float()` and `int()` make of the form text is a parameter.
- **Highlighting.** The highlighter's lexer name and HTML output are parameters.
- **The `dailystats` schema default.** A newly inserted daily row leaves one
  column unset, so that column takes the schema default `columnDefault`.
  The schema is not part of this model. The default is taken to be a number:
  if it were NULL, a later `+ 1` on that column (stats.py:30) would stay NULL,
  and `DailyStats` would not describe it.

### Where the behaviour is pinned down

The model follows the code in app.py, stats.py and gc.py:

- **TTL bounds.** A TTL is accepted only when strictly between the two bounds
  (app.py:149-153). Both bounds are excluded.
- **Expiry.** A paste is still served at the exact instant of its expiration.
  The read path evicts only when `expiration < now` (app.py:243).
- **Creation responses.** A posting to `/` answers with the text line
  `"<url> | <token>"`. A posting to `/newpaste` flashes the token and
  redirects to the paste. This follows the test `request.path != "/newpaste"`
  (app.py:205-219).
- **Collision checks.** A collision is checked against the stored rows,
  expired rows not yet evicted included (app.py:84-86), so the ID of a deleted paste can be handed out again.
- **The `burn == 0` test.** The test `paste_opt["burn"] == 0` (app.py:174)
  compares form text with an integer, so it never holds for a submitted value.
  The model keeps the other two tests.
- **U+0000.** PostgreSQL's `text` cannot hold the NUL character, and psycopg2
  refuses to send a string that contains it. A creation whose ID, token, lexer,
  content or rendering holds one raises at the insert (app.py:96-115), and a
  view or delete of such an ID raises in `db_getpaste` (app.py:116-120). Either
  way the client gets the 500 page (app.py:372-374) and nothing is stored or
  counted.
- **Sweep output.** The sweep prints the return value of `cursor.execute`
  (gc.py:8-11). That value is not a row count, so the model does not expose
  it. `SweepRemovesExpired` states the count instead.

## Model

| member | source | states |
|---|---|---|
| PasteText.TrimLeft | app.py:73 | the result is a suffix of the line, everything dropped is whitespace, and the result does not start with whitespace (`lstrip`) |
| PasteText.TrimRight | app.py:73 | the result is a prefix, everything dropped is whitespace, and the result does not end with whitespace (`rstrip`) |
| PasteText.StripEmptyIffAllSpace | app.py:73 | `line.strip()` is empty exactly when every character of the line is Python whitespace |
| PasteText.Split | app.py:70 | `split("\n")` yields at least one segment and no segment holds a newline |
| PasteText.JoinSplit | app.py:70 | joining the segments with newlines gives back the text: splitting loses nothing |
| PasteText.SplitJoin | app.py:70 | splitting a join of newline-free segments gives back the segments |
| PasteText.SplitLength | app.py:70 | the number of lines is the number of newlines plus one |
| PasteText.SlocIsNonBlank | app.py:71-74 | starting from the line count and subtracting one per stripped-empty line leaves the number of lines that hold a non-whitespace character |
| PasteText.Utf8LengthBounds | app.py:75 | the UTF-8 size is between one and four bytes per character, and equals the character count exactly for ASCII text |
| PasteText.Utf8Width | app.py:75 | reference definition: a character takes 1, 2, 3 or 4 bytes exactly when its code point lies below 0x80, below 0x800, below 0x10000, or above, the ranges of section 3 of RFC 3629 |
| PasteText.PasteStats | app.py:68-76 | lines = newlines + 1; sloc = non-blank lines, never more than lines; size is the UTF-8 byte length of the text, between 1 and 4 bytes per character; the empty paste has 1 line, 0 sloc, 0 bytes |
| PasteStore.Fetch | app.py:118-121 | a row is returned exactly when the ID is stored, and it is the stored row |
| PasteStore.Remove | app.py:124-126 | the ID is gone, every other row is untouched, and a missing ID is a no-op |
| PasteStore.Burn | app.py:129-133 | only the row with this ID changes, and only its burn, by minus one; a missing ID is a no-op |
| PasteStore.Insert | app.py:90-115 | a fresh ID gains the row, the store grows by one, and every existing row is kept |
| IdAllocator.EmptyIdReserved | app.py:79-82 | the loop's starting ID `""` collides with any URL map holding the rule `/`, as the application's does (app.py:136) |
| IdAllocator.Pick | app.py:192 | `choice` returns a character of the alphabet |
| IdAllocator.Draw | app.py:191-192 | a draw of n rolls is an ID of length n over the alphabet |
| IdAllocator.DrawId | app.py:190-192 | the character-by-character loop builds the same ID as `Draw` |
| IdAllocator.Candidates | app.py:187-193 | the successive IDs the loop draws grow by one character each and use only the alphabet |
| IdAllocator.FirstFreeCons | app.py:189 | a colliding ID in front of the candidates moves the first free one back by one place |
| IdAllocator.AllocateFromFirstFree | app.py:189-193 | from any loop state, the loop stops at the first candidate that collides with neither a route rule nor a stored paste, every earlier candidate colliding, or runs out of rolls only when every candidate collides |
| IdAllocator.FirstFreeUnique | app.py:189-193 | the first non-colliding candidate is unique |
| IdAllocator.IsAllocate | app.py:187-193 | any first non-colliding candidate is the one `Allocate` returns |
| IdAllocator.Allocate | app.py:79-87 | the allocated ID is the first free one; it took at least one draw, its length is the configured length plus draws minus one, it is drawn from the alphabet, names no route and is not a stored paste |
| IdAllocator.AllocateId | app.py:187-193 | the retry loop as written finds exactly the first free candidate, the same as `Allocate` |
| Lifecycle.BurnLimit | app.py:171-185 | an absent, empty or default burn selects the default; any other text is accepted exactly when `int()` parses it to a value within the inclusive bounds, and the accepted burn is that value |
| Lifecycle.Create | app.py:146-201 | checks run in the order empty, TTL, burn; any outcome but creation leaves the store unchanged; running out of rolls after all checks pass is exactly the OutOfRandomness rejection; the insert is refused exactly when all checks pass, an ID is found and one of its text parameters holds U+0000; creation happens exactly when none does, and the created ID is the one the allocation loop finds (`Allocate`'s first free candidate); the new row holds the content, token, `now + ttl*3600` expiry, burn, lexer, rendering and `paste_stats` of the content under a fresh non-route ID, with every other row kept |
| Lifecycle.StepsKeepKeysSendable | app.py:96-130 | creation, view and both deletes keep every stored ID free of U+0000: only a sendable ID is ever inserted |
| Lifecycle.CreateAddsOneRow | app.py:201 | a successful creation grows the store by exactly one row |
| Lifecycle.View | app.py:240-249 | served exactly when the row exists, has burn != 0 and has not passed its expiration; served rows are returned as read, with a positive burn decremented by one; an unavailable ID leaves no row; other rows are untouched |
| Lifecycle.Delete | app.py:282-294 | the row is removed exactly when the form or header token equals the stored token; a missing ID is Absent; a stored row without a matching token is Unauthorized; otherwise nothing changes; expiry and burn play no part |
| Lifecycle.DeleteByLink | app.py:332-341 | the row is removed exactly when the link's token equals the stored one; a missing ID is Absent and a wrong token Unauthorized; otherwise nothing changes |
| Lifecycle.DeleteByLinkIsFormDelete | app.py:285-287 | the delete link behaves as a DELETE carrying the token in its form |
| Lifecycle.ViewAll | app.py:240-249 | one outcome per view |
| Lifecycle.BurnCountdown | app.py:243-247 | a paste with n views left is served n times, with burn n, n-1, ..., 1; the next view evicts it and the rest of the store is unchanged |
| Lifecycle.UnlimitedNeverBurns | app.py:246-247 | a paste with negative burn is served by every view before expiry, and views never change the store |
| Lifecycle.CreateThenView | app.py:201-252 | a created paste read back before expiry is served exactly when its stored burn is not 0, and its content is the submitted text |
| Lifecycle.GoneIsTerminal | app.py:240-242 | once an ID has no row, views and deletes of it change nothing and report it absent |
| Counters.DailyRow.Bump | stats.py:30 | the chosen column goes up by one and the other column stays |
| Counters.BumpTotal | stats.py:9-11 | the named counter goes up by one if its row exists; no row is added and every other counter stays |
| Counters.DailyStats | stats.py:23-35 | today's row is inserted with 1 in the metric column and the schema default in the other, or has the metric bumped; other dates are untouched |
| Counters.CountPaste | stats.py:7-12 | one creation bumps `totalpastes` and today's `pastecount`, and nothing else |
| Counters.CountView | stats.py:15-20 | one view bumps `totalviews` and today's `pasteviews`, and nothing else |
| Counters.RecordingStepsUp | stats.py:7-20 | recording never lowers a counter, never drops a row, and raises each counter by at most one |
| Counters.GetStats | stats.py:38-50 | the daily entry is today's row or none; `total` maps every counter to its value, and is left unset when the `stats` table is empty |
| Sweeper.Sweep | gc.py:8-10 | no row past its expiration remains; every other row is kept as it was, including one expiring exactly now; nothing is added |
| Sweeper.SweepRemovesExpired | gc.py:8-10 | the rows removed are exactly the expired ones, and the store shrinks by their number |
| Sweeper.SweepLater | gc.py:8-10 | a sweep at a later time subsumes an earlier one |
| Sweeper.SweepIdempotent | gc.py:8-10 | a second sweep at the same time removes nothing |
| Sweeper.SweepNothingExpired | gc.py:8-10 | with no expired row the sweep changes nothing |
| Handlers.NewPasteEffects | app.py:146-219 | the pastes afterwards are exactly those the creation step leaves; the answer is 400 exactly when the creation is rejected, and it carries the rejection's own error (empty paste, TTL, burn limit); it is 500 exactly when the insert is refused; neither changes pastes or counters; it is a link line or a redirect exactly when the paste is created; a creation adds one paste and records one creation; `/` answers with the link line naming the created ID and carrying the token, and `/newpaste` with a redirect to the created ID |
| Handlers.ViewEffects | app.py:240-274 | an ID holding U+0000 answers 500 (`db_getpaste` raises, app.py:116-120) and changes nothing; otherwise the pastes afterwards are exactly those the view step leaves; the view is not found exactly when the ID is sendable and the row is missing, burned out or expired, and then it is not counted and no row remains; a served view is counted once; a page view answers with the stored rendering, line count, sloc, size and lexer; a raw view returns the stored text (the intended raw answer: see Findings) |
| Handlers.ViewHandlerAsWritten | app.py:240-252 | as written, a raw view that finds its paste burns and counts it exactly as the intended view does and then answers 500; a raw view that finds nothing answers 404; a page view is unchanged |
| Handlers.RawViewAsWrittenLosesPaste | app.py:246-252 | as written, a raw fetch of a paste with one view left answers 500, is counted, and leaves the paste gone for every later fetch, although the intended view would have served its text |
| Handlers.RawArgIsRawRoute | app.py:251-252 | reference fact, true by construction: `/<id>?raw` has the same effect and the same status as `/raw/<id>`, and serves the same text; the two 404 bodies differ and are not modelled |
| Handlers.DeleteEffects | app.py:281-294 | 500 exactly when the ID holds U+0000 (`db_getpaste` raises, app.py:116-120); for any other ID the pastes afterwards are exactly those the delete step leaves, and deletion never touches the counters; it answers 200 exactly when a carried token matches; only this row ever goes, and every other row is kept as it was; 404 exactly when the ID is unknown; 401 exactly when the row exists without a matching token; any other answer changes nothing |
| Handlers.DeleteLinkEffects | app.py:332-341 | 500 exactly when the ID holds U+0000 (`db_getpaste` raises, app.py:116-120); for any other ID the pastes afterwards are exactly those the link-delete step leaves, and the link never touches the counters; only this row ever goes, and every other row is kept as it was; it answers the deleted page exactly when its token matches, 404 exactly for an unknown ID and 401 exactly for a wrong token; only the first changes anything |
| Handlers.PostThenRaw | app.py:201-219 | an accepted posting to `/` answers with the link line, and fetching the raw view before expiry returns the submitted text byte for byte, unless the burn is 0 (the intended raw answer: see Findings) |
| Handlers.SweepInvisibleToViews | gc.py:8-10 | a view at the sweep's instant answers the same with or without the sweep, because the sweep removes only rows the read path would evict anyway |

## Left out

- HTTP and Flask mechanics are not modelled: templates, flash storage, cache-control headers, `url_for` URL text, the `?d` right-to-left hint, error pages and the GET of the new-paste form. Responses are reduced to a datatype.
- SQL, the connection pool and transactions are not modelled. Each handler is one atomic transition, so concurrent requests are out of scope. This covers two views racing on one burn, and two creations racing to insert one ID.
- Syntax highlighting is not modelled. The resolved lexer name and the rendered HTML are inputs, so lexer guessing and the fallback to `text` (app.py:158-169) are not modelled.
- Token generation (app.py:195-197) is not modelled. The token is an opaque input string.
- Float and integer parsing are not modelled. `float()` and `int()` are given as inputs, and a NaN or infinite TTL behaves as non-numeric text, because it fails the strict bounds the same way.
- `timedelta` rounding is not modelled. Expiry is `now + hours * 3600` in exact real arithmetic, with no microsecond rounding.
- The configuration module config.py is not part of this model. Its limits, defaults, alphabet and ID length are the `Config` record. The text that equals the default burn is a field, because the type of the default is not visible.
- The allocator takes the URL map as a parameter. `Create` passes the application's rule set `Routes`, which holds `/`, and `Allocate` requires that rule.
- IdAllocator.Allocate: with a finite stream of rolls it may report `Exhausted`, and `Create` then rejects with `OutOfRandomness`. The program itself would keep drawing.
- Lifecycle.Create: requires a non-empty alphabet. With an empty one, `choice` raises on the first draw, and that failure is not modelled.
- Lifecycle.Create: the burn is stored as the submitted text, and PostgreSQL casts it at the insert (app.py:94-115). The model stores the value `int()` gave. Text that `int()` accepts but PostgreSQL's integer input rejects, such as fullwidth digits, makes the insert fail with a 500, no row and no count; that failure is not modelled.
- Lifecycle.Create: the allocation loop's own queries (app.py:189) would raise on a candidate holding U+0000 before the insert does. The alphabet comes from config.py, and the model folds that case into the refused insert: the outcome is the same 500, with no row and no count.
- Lifecycle.Create: a request body over `MAX_CONTENT_LENGTH` (app.py:33) is refused with 413 before the handler runs; the model has no body size and does not model that answer.
- Handlers.ViewHandler: states the intended raw answer. What app.py does instead is `Handlers.ViewHandlerAsWritten`, recorded under Findings; that finding assumes config.py defines no name `config`.
- The `raw` form option is taken as a boolean (`== "true"`). Whether `defaults` supplies it is decided in config.py.
- The line the sweep prints (gc.py:11) is left out. It is the return value of `cursor.execute`, not a count.
- The client-side script src/utils/langs.js is left out, because it is not server behaviour.
- Python `str.isspace` is modelled by code point, following Unicode's White_Space and bidirectional classes. Lone surrogates cannot occur in a Dafny `string`.

## Findings

| source | as written | input that shows it | evidently intended | confidence | as-written member | corrected member |
|---|---|---|---|---|---|---|
| app.py:252, app.py:312 | the raw answer reads `config.paste_max_age`, but app.py imports names out of config (app.py:27-28) and binds no name `config`, so the lookup raises after the burn and the view count | a stored paste with burn 1 and a future expiration, fetched at `/raw/<id>` | serve the stored text with the cache age `paste_max_age` | medium, not executed; it assumes config.py defines no name `config` | Handlers.RawViewAsWrittenLosesPaste | Handlers.PostThenRaw |

=== FILE: allocator.dfy ===
/**
 Paste ID allocation: `url_collision` and the retry loop of `newpaste` in
 app.py. The loop starts from the empty ID, and while the current ID collides
 with a route rule or a stored paste it draws a fresh ID of the current length
 from the alphabet and grows the length by one.

 Python's `choice` is replaced by a stream of rolls: a call to `choice(url_alph)`
 consumes the next roll `n` and returns `url_alph[n % len(url_alph)]`. The model
 stops with `Exhausted` when the stream is too short for the next draw; the
 program itself would keep drawing.
 */
module IdAllocator {
  import opened PasteStore

  /** The rule strings of the application's URL map: the routes app.py declares,
      plus the static-file rule Flask adds by default. The allocator below takes
      the map as a parameter `routes`; the application passes this one. */
  const Routes: set<string> := {
    "/", "/newpaste", "/<pasteid>", "/plain/<pasteid>", "/raw/<pasteid>",
    "/<pasteid>/<token>", "/about/api", "/about", "/stats",
    "/static/<path:filename>"
  }

  /** Some rule of the URL map `routes` is spelled `"/" + id`. */
  predicate Reserved(routes: set<string>, id: string) {
    "/" + id in routes
  }

  /** The empty ID names the rule `/`. */
  lemma EmptyIdReserved(routes: set<string>)
    requires "/" in routes
    ensures Reserved(routes, "")
  {
    assert "/" + "" == "/";
  }

  /** `url_collision(cursor, id)`, against the URL map `routes`. */
  predicate Collides(store: Store, routes: set<string>, id: string) {
    Reserved(routes, id) || id in store
  }

  /** Every character of `s` is drawn from `alphabet`. */
  predicate DrawnFrom(s: string, alphabet: string) {
    forall i :: 0 <= i < |s| ==> s[i] in alphabet
  }

  /** The character one call to `choice(alphabet)` returns for `roll`. */
  function Pick(alphabet: string, roll: nat): (c: char)
    requires |alphabet| > 0
    ensures c in alphabet
  {
    alphabet[roll % |alphabet|]
  }

  /** The ID built by `|rolls|` successive calls to `choice`. */
  function Draw(alphabet: string, rolls: seq<nat>): (s: string)
    requires |alphabet| > 0
    ensures |s| == |rolls|
    ensures DrawnFrom(s, alphabet)
  {
    if |rolls| == 0 then ""
    else Draw(alphabet, rolls[..|rolls| - 1]) + [Pick(alphabet, rolls[|rolls| - 1])]
  }

  /** The IDs the loop draws, in order, from a loop state whose next draw has
      length `len` and reads the front of `rolls`: each draw is one longer than
      the one before, and the list ends where the rolls no longer suffice. */
  function Candidates(alphabet: string, len: nat, rolls: seq<nat>): (cs: seq<string>)
    requires |alphabet| > 0
    ensures forall j :: 0 <= j < |cs| ==> |cs[j]| == len + j && DrawnFrom(cs[j], alphabet)
    decreases |rolls|, if len == 0 then 1 else 0
  {
    if len > |rolls| then []
    else [Draw(alphabet, rolls[..len])] + Candidates(alphabet, len + 1, rolls[len..])
  }

  /** Outcome of allocation: the first free candidate and the number of draws
      it took, or the roll stream ran out first. */
  datatype Allocation = Allocated(id: string, draws: nat) | Exhausted

  /** The same outcome, `n` draws later. */
  function Later(r: Allocation, n: nat): Allocation {
    match r
    case Allocated(id, d) => Allocated(id, d + n)
    case Exhausted => Exhausted
  }

  /** The loop from a state holding `candidate`, with `len` the length of the
      next draw and `rolls[pos..]` the rolls not yet consumed; draws are counted
      from this state. */
  function AllocateFrom(store: Store, routes: set<string>, alphabet: string, len: nat, rolls: seq<nat>, pos: nat, candidate: string): Allocation
    requires |alphabet| > 0 && pos <= |rolls|
    decreases |rolls| - pos, if len == 0 then 1 else 0
  {
    if !Collides(store, routes, candidate) then Allocated(candidate, 0)
    else if pos + len > |rolls| then Exhausted
    else Later(AllocateFrom(store, routes, alphabet, len + 1, rolls, pos + len, Draw(alphabet, rolls[pos..pos + len])), 1)
  }

  /** `r` is the first ID of `cs` that does not collide, with its index, or
      `Exhausted` when every one collides. */
  ghost predicate FirstFree(store: Store, routes: set<string>, cs: seq<string>, r: Allocation) {
    match r
    case Allocated(id, n) =>
      && n < |cs|
      && id == cs[n]
      && !Collides(store, routes, id)
      && forall j :: 0 <= j < n ==> Collides(store, routes, cs[j])
    case Exhausted =>
      forall j :: 0 <= j < |cs| ==> Collides(store, routes, cs[j])
  }

  /** Putting a colliding ID in front of the candidates moves the first free one
      back by one place. */
  lemma FirstFreeCons(store: Store, routes: set<string>, c: string, cs: seq<string>, r: Allocation)
    requires Collides(store, routes, c)
    requires FirstFree(store, routes, cs, r)
    ensures FirstFree(store, routes, [c] + cs, Later(r, 1))
  {
    var cs' := [c] + cs;
    assert forall j :: 0 < j < |cs'| ==> cs'[j] == cs[j - 1];
  }

  /** From any loop state, the loop stops at the first ID among `candidate` and
      the candidates still to be drawn that collides with neither a route nor a
      stored paste, or runs out of rolls when every one collides. */
  lemma {:induction false} AllocateFromFirstFree(store: Store, routes: set<string>, alphabet: string, len: nat, rolls: seq<nat>, pos: nat, candidate: string)
    requires |alphabet| > 0 && pos <= |rolls|
    ensures FirstFree(store, routes, [candidate] + Candidates(alphabet, len, rolls[pos..]),
                      AllocateFrom(store, routes, alphabet, len, rolls, pos, candidate))
    decreases |rolls| - pos, if len == 0 then 1 else 0
  {
    var rest := rolls[pos..];
    if !Collides(store, routes, candidate) {
    } else if pos + len > |rolls| {
      assert [candidate] + Candidates(alphabet, len, rest) == [candidate];
    } else {
      assert rest[..len] == rolls[pos..pos + len];
      assert rest[len..] == rolls[pos + len..];
      var next := Draw(alphabet, rolls[pos..pos + len]);
      AllocateFromFirstFree(store, routes, alphabet, len + 1, rolls, pos + len, next);
      FirstFreeCons(store, routes, candidate, [next] + Candidates(alphabet, len + 1, rolls[pos + len..]),
                    AllocateFrom(store, routes, alphabet, len + 1, rolls, pos + len, next));
    }
  }

  /** There is only one first free ID. */
  lemma FirstFreeUnique(store: Store, routes: set<string>, cs: seq<string>, r: Allocation, r': Allocation)
    requires FirstFree(store, routes, cs, r) && FirstFree(store, routes, cs, r')
    ensures r == r'
  {
  }

  /** The whole allocation of `newpaste`, from the empty ID with the configured
      length: the result is the first of `""` and the successive draws that
      neither names a route nor an existing paste. The empty start always
      collides with the rule `/`, so at least one draw is made, and an ID that
      took `n` draws has length `urlLen + n - 1`. */
  function Allocate(store: Store, routes: set<string>, alphabet: string, urlLen: nat, rolls: seq<nat>): (r: Allocation)
    requires |alphabet| > 0
    requires "/" in routes
    ensures FirstFree(store, routes, [""] + Candidates(alphabet, urlLen, rolls), r)
    ensures r.Allocated? ==>
              && r.draws >= 1
              && |r.id| == urlLen + r.draws - 1
              && DrawnFrom(r.id, alphabet)
              && !Reserved(routes, r.id)
              && r.id !in store
  {
    EmptyIdReserved(routes);
    AllocateFromFirstFree(store, routes, alphabet, urlLen, rolls, 0, "");
    assert rolls[0..] == rolls;
    var r := AllocateFrom(store, routes, alphabet, urlLen, rolls, 0, "");
    assert r.Allocated? ==> r.draws >= 1 && r.id == Candidates(alphabet, urlLen, rolls)[r.draws - 1];
    r
  }

  /** Any first free ID is the one `Allocate` finds. */
  lemma IsAllocate(store: Store, routes: set<string>, alphabet: string, urlLen: nat, rolls: seq<nat>, r: Allocation)
    requires |alphabet| > 0
    requires "/" in routes
    requires FirstFree(store, routes, [""] + Candidates(alphabet, urlLen, rolls), r)
    ensures r == Allocate(store, routes, alphabet, urlLen, rolls)
  {
    FirstFreeUnique(store, routes, [""] + Candidates(alphabet, urlLen, rolls), r, Allocate(store, routes, alphabet, urlLen, rolls));
  }

  /** `for _ in range(len(rolls)): pasteid += choice(url_alph)`. */
  method DrawId(alphabet: string, rolls: seq<nat>) returns (id: string)
    requires |alphabet| > 0
    ensures id == Draw(alphabet, rolls)
  {
    id := "";
    var i := 0;
    while i < |rolls|
      invariant 0 <= i <= |rolls|
      invariant id == Draw(alphabet, rolls[..i])
    {
      assert rolls[..i + 1][..i] == rolls[..i];
      id := id + [Pick(alphabet, rolls[i])];
      i := i + 1;
    }
    assert rolls[..|rolls|] == rolls;
  }

  /** Shifting twice is shifting by the sum. */
  lemma LaterLater(r: Allocation, a: nat, b: nat)
    ensures Later(Later(r, a), b) == Later(r, a + b)
  {
  }

  /** The retry loop of `newpaste` as written: it builds each candidate one
      `choice` at a time, and finds the first free ID, the same as `Allocate`. */
  method AllocateId(store: Store, routes: set<string>, alphabet: string, urlLen: nat, rolls: seq<nat>) returns (r: Allocation)
    requires |alphabet| > 0
    requires "/" in routes
    ensures r == Allocate(store, routes, alphabet, urlLen, rolls)
    ensures FirstFree(store, routes, [""] + Candidates(alphabet, urlLen, rolls), r)
  {
    var id := "";
    var len: nat := urlLen;
    var pos: nat := 0;
    var k: nat := 0;
    while Collides(store, routes, id)
      invariant pos <= |rolls|
      invariant Later(AllocateFrom(store, routes, alphabet, len, rolls, pos, id), k) == AllocateFrom(store, routes, alphabet, urlLen, rolls, 0, "")
      decreases |rolls| - pos, if len == 0 then 1 else 0
    {
      if pos + len > |rolls| {
        r := Exhausted;
        return;
      }
      LaterLater(AllocateFrom(store, routes, alphabet, len + 1, rolls, pos + len, Draw(alphabet, rolls[pos..pos + len])), 1, k);
      id := DrawId(alphabet, rolls[pos..pos + len]);
      pos := pos + len;
      len := len + 1;
      k := k + 1;
    }
    r := Allocated(id, k);
  }
}

=== FILE: counters.dfy ===
/**
 The usage counters of stats.py: the `stats` table of lifetime counters,
 keyed by metric name, and the `dailystats` table, one row per UTC date with
 one column per daily metric. Counters only ever go up.
 */
module Counters {
  import opened PasteStore

  /** A UTC calendar date, as a day number. */
  type Date = int

  /** The two metric columns of `dailystats`, `pastecount` and `pasteviews`. */
  datatype Metric = PasteCount | PasteViews {
    /** The metric in the other column. */
    function Other(): Metric {
      match this
      case PasteCount => PasteViews
      case PasteViews => PasteCount
    }
  }

  /** The lifetime counters `pastecount` and `pasteview` bump. */
  const TotalPastes: string := "totalpastes"
  const TotalViews: string := "totalviews"

  /** One row of `dailystats`, without its date. */
  datatype DailyRow = DailyRow(pastecount: int, pasteviews: int) {
    function Get(m: Metric): int {
      match m
      case PasteCount => pastecount
      case PasteViews => pasteviews
    }

    /** `SET m = dailystats.m + 1`. */
    function Bump(m: Metric): (r: DailyRow)
      ensures r.Get(m) == Get(m) + 1
      ensures r.Get(m.Other()) == Get(m.Other())
    {
      match m
      case PasteCount => this.(pastecount := pastecount + 1)
      case PasteViews => this.(pasteviews := pasteviews + 1)
    }
  }

  /** Both tables. */
  datatype Counters = Counters(totals: map<string, int>, daily: map<Date, DailyRow>)

  /** `UPDATE stats SET counter = counter + 1 WHERE metric = name`: bumps that one
      counter, and matches nothing when the table has no such row. */
  function BumpTotal(totals: map<string, int>, name: string): (r: map<string, int>)
    ensures r.Keys == totals.Keys
    ensures name in totals ==> r[name] == totals[name] + 1
    ensures forall k :: k in totals && k != name ==> r[k] == totals[k]
  {
    if name in totals then totals[name := totals[name] + 1] else totals
  }

  /** `dailystats(cursor, m, today)`: an upsert on the date. A new row holds 1 in
      column `m` and the schema default `columnDefault` in the other column; an
      existing row has column `m` bumped. Other dates are untouched. */
  function DailyStats(daily: map<Date, DailyRow>, m: Metric, today: Date, columnDefault: int): (r: map<Date, DailyRow>)
    ensures r.Keys == daily.Keys + {today}
    ensures today !in daily ==> r[today].Get(m) == 1 && r[today].Get(m.Other()) == columnDefault
    ensures today in daily ==>
              && r[today].Get(m) == daily[today].Get(m) + 1
              && r[today].Get(m.Other()) == daily[today].Get(m.Other())
    ensures forall d :: d in daily && d != today ==> r[d] == daily[d]
  {
    if today in daily then daily[today := daily[today].Bump(m)]
    else
      var inserted := match m
        case PasteCount => DailyRow(1, columnDefault)
        case PasteViews => DailyRow(columnDefault, 1);
      daily[today := inserted]
  }

  /** `pastecount`: one creation is counted in `totalpastes` and in today's
      `pastecount`. */
  function CountPaste(c: Counters, today: Date, columnDefault: int): (r: Counters)
    ensures r.totals.Keys == c.totals.Keys
    ensures TotalPastes in c.totals ==> r.totals[TotalPastes] == c.totals[TotalPastes] + 1
    ensures forall k :: k in c.totals && k != TotalPastes ==> r.totals[k] == c.totals[k]
    ensures r.daily.Keys == c.daily.Keys + {today}
    ensures r.daily[today].pastecount == (if today in c.daily then c.daily[today].pastecount + 1 else 1)
    ensures r.daily[today].pasteviews == (if today in c.daily then c.daily[today].pasteviews else columnDefault)
    ensures forall d :: d in c.daily && d != today ==> r.daily[d] == c.daily[d]
  {
    Counters(BumpTotal(c.totals, TotalPastes), DailyStats(c.daily, PasteCount, today, columnDefault))
  }

  /** `pasteview`: one view is counted in `totalviews` and in today's
      `pasteviews`. */
  function CountView(c: Counters, today: Date, columnDefault: int): (r: Counters)
    ensures r.totals.Keys == c.totals.Keys
    ensures TotalViews in c.totals ==> r.totals[TotalViews] == c.totals[TotalViews] + 1
    ensures forall k :: k in c.totals && k != TotalViews ==> r.totals[k] == c.totals[k]
    ensures r.daily.Keys == c.daily.Keys + {today}
    ensures r.daily[today].pasteviews == (if today in c.daily then c.daily[today].pasteviews + 1 else 1)
    ensures r.daily[today].pastecount == (if today in c.daily then c.daily[today].pastecount else columnDefault)
    ensures forall d :: d in c.daily && d != today ==> r.daily[d] == c.daily[d]
  {
    Counters(BumpTotal(c.totals, TotalViews), DailyStats(c.daily, PasteViews, today, columnDefault))
  }

  /** No counter present in `c` is lower in `c'`, nor more than one higher. */
  ghost predicate StepsUp(c: Counters, c': Counters) {
    && c.totals.Keys <= c'.totals.Keys
    && (forall k :: k in c.totals ==> c.totals[k] <= c'.totals[k] <= c.totals[k] + 1)
    && c.daily.Keys <= c'.daily.Keys
    && (forall d, m: Metric :: d in c.daily ==> c.daily[d].Get(m) <= c'.daily[d].Get(m) <= c.daily[d].Get(m) + 1)
  }

  /** Recording a creation or a view never lowers a counter and raises each by
      at most one. */
  lemma RecordingStepsUp(c: Counters, today: Date, columnDefault: int)
    ensures StepsUp(c, CountPaste(c, today, columnDefault))
    ensures StepsUp(c, CountView(c, today, columnDefault))
  {
    forall d, m: Metric | d in c.daily
      ensures c.daily[d].Get(m) <= CountPaste(c, today, columnDefault).daily[d].Get(m) <= c.daily[d].Get(m) + 1
      ensures c.daily[d].Get(m) <= CountView(c, today, columnDefault).daily[d].Get(m) <= c.daily[d].Get(m) + 1
    {
      if d == today {
        assert m == PasteCount || m == PasteCount.Other();
        assert m == PasteViews || m == PasteViews.Other();
      }
    }
  }

  /** What `getstats` returns: today's daily row, if any, and the lifetime
      counters by name, absent when the `stats` table has no row. */
  datatype Report = Report(daily: Option<DailyRow>, total: Option<map<string, int>>)

  /** `rows` is what `fetchall` returns for the table `totals`: every row once, in
      some order. */
  ghost predicate Lists(rows: seq<(string, int)>, totals: map<string, int>) {
    && (forall i, j :: 0 <= i < j < |rows| ==> rows[i].0 != rows[j].0)
    && (forall i :: 0 <= i < |rows| ==> rows[i].0 in totals && totals[rows[i].0] == rows[i].1)
    && (forall k :: k in totals ==> exists i :: 0 <= i < |rows| && rows[i].0 == k)
  }

  /** `getstats`, with the row order of `SELECT * FROM stats` as a parameter. The
      `"total"` entry is assigned inside the loop, so an empty table leaves it
      unset; otherwise it holds every counter by name. */
  method GetStats(c: Counters, today: Date, rows: seq<(string, int)>) returns (report: Report)
    requires Lists(rows, c.totals)
    ensures report.daily == (if today in c.daily then Some(c.daily[today]) else None)
    ensures report.total == (if c.totals == map[] then None else Some(c.totals))
  {
    var daily := if today in c.daily then Some(c.daily[today]) else None;
    var totalstats: map<string, int> := map[];
    var total: Option<map<string, int>> := None;
    for i := 0 to |rows|
      invariant total == (if i == 0 then None else Some(totalstats))
      invariant forall j :: 0 <= j < i ==> rows[j].0 in totalstats && totalstats[rows[j].0] == rows[j].1
      invariant forall k :: k in totalstats ==> exists j :: 0 <= j < i && rows[j].0 == k
    {
      totalstats := totalstats[rows[i].0 := rows[i].1];
      total := Some(totalstats);
    }
    if |rows| > 0 {
      assert rows[0].0 in c.totals;
      forall k | k in c.totals
        ensures k in totalstats && totalstats[k] == c.totals[k]
      {
        var j :| 0 <= j < |rows| && rows[j].0 == k;
      }
      assert totalstats.Keys == c.totals.Keys;
      assert totalstats == c.totals;
    } else {
      assert forall k :: k !in c.totals;
      assert c.totals == map[];
    }
    report := Report(daily, total);
  }
}

=== FILE: handlers.dfy ===
/**
 The request handlers of app.py over the whole state (pastes and counters),
 with templates, headers and caching left out: each handler runs the
 lifecycle step and then records the statistic the handler records.
 */
module Handlers {
  import opened PasteStore
  import opened Lifecycle
  import opened Counters
  import opened Sweeper

  /** Everything the handlers read and write. */
  datatype State = State(pastes: Store, counters: Counters)

  /** The clock and calendar a request sees, and the schema default of a
      `dailystats` column the upsert does not set. */
  datatype Env = Env(now: Time, today: Date, columnDefault: int)

  /** Which of the two creation routes was posted to. */
  datatype Endpoint = Root | NewPasteApi

  /** What the client is sent. */
  datatype Response =
    | LinkLine(id: string, token: string, raw: bool) // "<url> | <token>\n"; the URL is the raw one when `raw`
    | Redirect(id: string, token: string)            // to the paste view, the token flashed once
    | BadRequest(error: CreateError)
    | PastePage(rendered: string, lines: nat, sloc: nat, size: nat, lexer: string)
    | RawText(text: string)
    | DeletedPage
    | NotFoundPage
    | UnauthorizedPage
    | ServerError                                    // an uncaught exception: the 500 page

  /** The HTTP status of each response. */
  function Status(r: Response): int {
    match r
    case Redirect(_, _) => 302
    case BadRequest(_) => 400
    case NotFoundPage => 404
    case UnauthorizedPage => 401
    case ServerError => 500
    case _ => 200
  }

  /** POST of `/` or `/newpaste`. A created paste is counted; a posting to `/`
      answers with a text line, one to `/newpaste` with a redirect. A refused
      insert raises before `pastecount`, so the client gets the 500 page. */
  function NewPaste(cfg: Config, s: State, env: Env, req: NewPaste, rolls: seq<nat>, token: string,
                    endpoint: Endpoint, rawLink: bool): (r: (State, Response))
    requires |cfg.alphabet| > 0
  {
    var c := Create(cfg, s.pastes, env.now, req, rolls, token);
    match c.outcome
    case Rejected(e) => (s, BadRequest(e))
    case InsertFailed => (s, ServerError)
    case Created(id, tok) =>
      var counted := CountPaste(s.counters, env.today, env.columnDefault);
      var resp := if endpoint == Root then LinkLine(id, tok, rawLink) else Redirect(id, tok);
      (State(c.store, counted), resp)
  }

  /** The response for a row served by a view. */
  function ServedResponse(row: Paste, raw: bool): Response {
    if raw then RawText(row.content)
    else PastePage(row.rendered, row.lines, row.sloc, row.size, row.lexer)
  }

  /** The GET branch shared by `viewpaste` and `viewraw`: a served view is
      counted; a failed one is not. An ID the driver cannot send makes
      `db_getpaste` raise before anything changes. */
  function ViewHandler(s: State, env: Env, id: string, raw: bool): (r: (State, Response)) {
    if !Sendable(id) then (s, ServerError) else
    var v := View(s.pastes, id, env.now);
    match v.outcome
    case Unavailable => (State(v.store, s.counters), NotFoundPage)
    case Served(row) => (State(v.store, CountView(s.counters, env.today, env.columnDefault)), ServedResponse(row, raw))
  }

  /** The GET branch as app.py writes it. The raw answer reads
      `config.paste_max_age` (app.py:252, 312), but app.py binds no name
      `config`: it imports names out of that module (app.py:27-28). The lookup
      therefore raises after `db_burn` and `pasteview` have run, and the client
      gets the 500 page instead of the text. */
  function ViewHandlerAsWritten(s: State, env: Env, id: string, raw: bool): (r: (State, Response))
    ensures r.0 == ViewHandler(s, env, id, raw).0
    ensures !raw ==> r.1 == ViewHandler(s, env, id, raw).1
    ensures raw ==> (r.1 == ServerError <==> ViewHandler(s, env, id, raw).1 != NotFoundPage)
    ensures raw && r.1 != ServerError ==> r.1 == NotFoundPage
  {
    var (s', resp) := ViewHandler(s, env, id, raw);
    if raw && resp != NotFoundPage then (s', ServerError) else (s', resp)
  }

  /** As written, a paste with one view left fetched raw is used up and counted
      without its text ever reaching the client: the fetch answers 500, and every
      later fetch finds it gone. */
  lemma RawViewAsWrittenLosesPaste(s: State, env: Env, id: string, later: Env)
    requires KeysSendable(s.pastes)
    requires id in s.pastes && s.pastes[id].burn == 1 && env.now <= s.pastes[id].expiration
    ensures var (s1, resp) := ViewHandlerAsWritten(s, env, id, true);
            && resp == ServerError
            && Status(resp) == 500
            && s1.counters == CountView(s.counters, env.today, env.columnDefault)
            && ViewHandler(s1, later, id, true).1 == NotFoundPage
            && ViewHandler(s, env, id, true).1 == RawText(s.pastes[id].content)
  {
  }

  /** GET of `/<id>`, with `?raw` present or not. */
  function ViewPaste(s: State, env: Env, id: string, rawArg: bool): (State, Response) {
    ViewHandler(s, env, id, rawArg)
  }

  /** GET of `/raw/<id>` or `/plain/<id>`. */
  function ViewRaw(s: State, env: Env, id: string): (State, Response) {
    ViewHandler(s, env, id, true)
  }

  /** DELETE of `/<id>`, `/raw/<id>` or `/plain/<id>`. */
  function DeletePaste(s: State, id: string, creds: Credentials): (r: (State, Response)) {
    if !Sendable(id) then (s, ServerError) else
    var d := Delete(s.pastes, id, creds);
    var resp := match d.outcome
      case Deleted => DeletedPage
      case Absent => NotFoundPage
      case Unauthorized => UnauthorizedPage;
    (State(d.store, s.counters), resp)
  }

  /** GET of `/<id>/<token>`. */
  function DeleteLink(s: State, id: string, token: string): (r: (State, Response)) {
    if !Sendable(id) then (s, ServerError) else
    var d := DeleteByLink(s.pastes, id, token);
    var resp := match d.outcome
      case Deleted => DeletedPage
      case Absent => NotFoundPage
      case Unauthorized => UnauthorizedPage;
    (State(d.store, s.counters), resp)
  }

  /** A rejected posting answers 400 and a refused insert 500, and neither
      changes anything, counters included; an accepted one adds one paste and
      records exactly one creation. */
  lemma NewPasteEffects(cfg: Config, s: State, env: Env, req: NewPaste, rolls: seq<nat>, token: string,
                        endpoint: Endpoint, rawLink: bool)
    requires |cfg.alphabet| > 0
    ensures var (s', resp) := NewPaste(cfg, s, env, req, rolls, token, endpoint, rawLink);
            var c := Create(cfg, s.pastes, env.now, req, rolls, token);
            && s'.pastes == c.store
            && (req.content == "" ==> resp == BadRequest(EmptyPaste))
            && (resp.BadRequest? <==> c.outcome.Rejected?)
            && (resp.BadRequest? ==> resp.error == c.outcome.error && Status(resp) == 400 && s' == s)
            && (resp == ServerError <==> c.outcome.InsertFailed?)
            && (resp == ServerError ==> Status(resp) == 500 && s' == s)
            && (c.outcome.Created? <==> resp.LinkLine? || resp.Redirect?)
            && (c.outcome.Created? ==>
                  && |s'.pastes| == |s.pastes| + 1
                  && s'.counters == CountPaste(s.counters, env.today, env.columnDefault)
                  && (endpoint == Root ==>
                        resp.LinkLine? && resp.id == c.outcome.id && resp.token == token && resp.raw == rawLink)
                  && (endpoint == NewPasteApi ==>
                        resp.Redirect? && resp.id == c.outcome.id && resp.token == token && Status(resp) == 302))
  {
    var c := Create(cfg, s.pastes, env.now, req, rolls, token);
    if c.outcome.Created? {
      CreateAddsOneRow(cfg, s.pastes, env.now, req, rolls, token);
    }
  }

  /** `?raw` on `/<id>` has the same effect and the same status as `/raw/<id>`,
      and serves the same text. (The two 404 bodies differ, a rendered template
      against a message text, and are not modelled.) */
  lemma RawArgIsRawRoute(s: State, env: Env, id: string)
    ensures ViewPaste(s, env, id, true) == ViewRaw(s, env, id)
  {
  }

  /** Views are counted exactly when they serve the paste and leave the pastes
      as the view step does; a raw view serves the stored text byte for byte,
      and a page view the stored rendering and statistics. An ID the driver
      cannot send answers 500 and changes nothing. */
  lemma ViewEffects(s: State, env: Env, id: string, raw: bool)
    ensures var (s', resp) := ViewHandler(s, env, id, raw);
            var served := Sendable(id) && id in s.pastes && s.pastes[id].burn != 0 && env.now <= s.pastes[id].expiration;
            && (resp == ServerError <==> !Sendable(id))
            && (resp == ServerError ==> Status(resp) == 500 && s' == s)
            && (Sendable(id) ==> s'.pastes == View(s.pastes, id, env.now).store)
            && (resp == NotFoundPage <==> Sendable(id) && !served)
            && (resp == NotFoundPage ==> s'.counters == s.counters && id !in s'.pastes)
            && (served ==> s'.counters == CountView(s.counters, env.today, env.columnDefault))
            && (served && raw ==> resp == RawText(s.pastes[id].content))
            && (served && !raw ==>
                  var row := s.pastes[id];
                  resp == PastePage(row.rendered, row.lines, row.sloc, row.size, row.lexer))
  {
  }

  /** Deletion never touches the counters; it answers 200 when it removed the
      row, 404 for an unknown ID, 401 for a stored row without a matching
      token, and 500 for an ID the driver cannot send. */
  lemma DeleteEffects(s: State, id: string, creds: Credentials)
    ensures var (s', resp) := DeletePaste(s, id, creds);
            && (Sendable(id) ==> s'.pastes == Delete(s.pastes, id, creds).store)
            && s'.counters == s.counters
            && (Status(resp) == 500 <==> !Sendable(id))
            && (Status(resp) == 200 <==> Sendable(id) && id in s.pastes && Presents(creds, s.pastes[id].token))
            && (Status(resp) == 404 <==> Sendable(id) && id !in s.pastes)
            && (Status(resp) == 401 <==> Sendable(id) && id in s.pastes && !Presents(creds, s.pastes[id].token))
            && (Status(resp) == 200 ==> s'.pastes.Keys == s.pastes.Keys - {id})
            && (forall k :: k in s'.pastes ==> s'.pastes[k] == s.pastes[k])
            && (Status(resp) != 200 ==> s' == s)
  {
  }

  /** The delete link answers the deleted page when its token matches, 404 for an
      unknown ID, 401 for a wrong token and 500 for an ID the driver cannot
      send; only the first changes anything. */
  lemma DeleteLinkEffects(s: State, id: string, token: string)
    ensures var (s', resp) := DeleteLink(s, id, token);
            && (Sendable(id) ==> s'.pastes == DeleteByLink(s.pastes, id, token).store)
            && s'.counters == s.counters
            && (Status(resp) == 500 <==> !Sendable(id))
            && (resp == DeletedPage <==> Sendable(id) && id in s.pastes && s.pastes[id].token == token)
            && (Status(resp) == 404 <==> Sendable(id) && id !in s.pastes)
            && (Status(resp) == 401 <==> Sendable(id) && id in s.pastes && s.pastes[id].token != token)
            && (resp == DeletedPage ==> s'.pastes.Keys == s.pastes.Keys - {id})
            && (forall k :: k in s'.pastes ==> s'.pastes[k] == s.pastes[k])
            && (resp != DeletedPage ==> s' == s)
  {
  }

  /** Posting to `/` and then fetching the raw view before expiry returns the
      submitted text, provided the stored burn is not 0. This is the intended
      raw answer; `ViewHandlerAsWritten` is the one app.py gives. */
  lemma PostThenRaw(cfg: Config, s: State, env: Env, req: NewPaste, rolls: seq<nat>, token: string,
                    rawLink: bool, later: Env)
    requires |cfg.alphabet| > 0
    requires Create(cfg, s.pastes, env.now, req, rolls, token).outcome.Created?
    requires later.now <= env.now + req.ttl.hours * SecondsPerHour
    requires BurnLimit(cfg, req.burn) != Some(0)
    ensures var (s1, resp) := NewPaste(cfg, s, env, req, rolls, token, Root, rawLink);
            && resp.LinkLine?
            && ViewRaw(s1, later, resp.id).1 == RawText(req.content)
  {
    CreateThenView(cfg, s.pastes, env.now, req, rolls, token, later.now);
  }

  /** The sweep only removes rows every read path would already treat as gone:
      a view at the sweep's instant answers the same with or without it. */
  lemma SweepInvisibleToViews(store: Store, id: string, now: Time)
    ensures View(Sweep(store, now), id, now).outcome == View(store, id, now).outcome
  {
  }
}

=== FILE: lifecycle.dfy ===
/**
 The paste lifecycle of app.py, with the SQL and HTTP taken away: creation
 (the checks and the insert of `newpaste`), reading (the GET branches of
 `viewpaste` and `viewraw`) and deletion (their DELETE branches and
 `deletepaste`). Each operation is a pure transition from a store to a new
 store and an outcome.
 */
module Lifecycle {
  import opened PasteStore
  import opened PasteText
  import opened IdAllocator

  /** The settings app.py takes from its configuration module. */
  datatype Config = Config(
    ttlMin: real,            // paste_limits["ttl_min"], in hours
    ttlMax: real,            // paste_limits["ttl_max"], in hours
    burnMin: int,            // paste_limits["burn_min"]
    burnMax: int,            // paste_limits["burn_max"]
    burnDefault: int,        // defaults["burn"], the value stored
    burnDefaultText: string, // the form text that compares equal to defaults["burn"];
                             // "" when the default is a number, which no form text equals
    alphabet: string,        // url_alph
    urlLen: nat)             // url_len

  /** The `ttl` option: a number of hours, or text `float()` rejects. A NaN or
      an infinity parses but fails both strict bounds, so it behaves as text. */
  datatype TtlInput = TtlNumber(hours: real) | TtlNonNumeric

  /** The `burn` option: absent from the form (the default applies), or the
      submitted text together with what `int()` makes of it (`None` when it
      raises `ValueError`). */
  datatype BurnInput = BurnAbsent | BurnText(text: string, asInt: Option<int>)

  /** A creation request. `lexer` and `rendered` are the resolved lexer name and
      the highlighter's output for `content`. */
  datatype NewPaste = NewPaste(content: string, ttl: TtlInput, burn: BurnInput, lexer: string, rendered: string)

  /** `OutOfRandomness` belongs to the model only: the ID loop ran out of rolls. */
  datatype CreateError = EmptyPaste | InvalidTtl | InvalidBurnLimit | OutOfRandomness

  /** `InsertFailed` is the 500 of an insert the driver refuses. */
  datatype CreateOutcome = Created(id: string, token: string) | Rejected(error: CreateError) | InsertFailed

  datatype ViewOutcome = Served(row: Paste) | Unavailable

  datatype DeleteOutcome = Deleted | Absent | Unauthorized

  /** A store transition: the store afterwards and what the caller is told. */
  datatype Step<O> = Step(store: Store, outcome: O)

  /** The TTL check of `newpaste`: strictly between the two bounds. */
  predicate TtlAccepted(cfg: Config, t: TtlInput) {
    t.TtlNumber? && cfg.ttlMin < t.hours < cfg.ttlMax
  }

  /** The burn check of `newpaste`: the burn value to store, or `None` for
      InvalidBurnLimit. Empty text and the default's own text select the default;
      any other text must be an integer within the inclusive bounds. */
  function BurnLimit(cfg: Config, b: BurnInput): (r: Option<int>)
    ensures (b.BurnAbsent? || b.text == "" || b.text == cfg.burnDefaultText) ==> r == Some(cfg.burnDefault)
    ensures r.Some? ==> r.value == cfg.burnDefault || cfg.burnMin <= r.value <= cfg.burnMax
    ensures b.BurnText? && b.asInt.None? && r.Some? ==> r.value == cfg.burnDefault
    ensures b.BurnText? && b.text != "" && b.text != cfg.burnDefaultText ==>
              && (r.Some? <==> b.asInt.Some? && cfg.burnMin <= b.asInt.value <= cfg.burnMax)
              && (r.Some? ==> r.value == b.asInt.value)
  {
    match b
    case BurnAbsent => Some(cfg.burnDefault)
    case BurnText(text, asInt) =>
      if text == "" || text == cfg.burnDefaultText then Some(cfg.burnDefault)
      else if asInt.Some? && cfg.burnMin <= asInt.value <= cfg.burnMax then Some(asInt.value)
      else None
  }

  /** Whether the text parameters of `db_newpaste` can be sent: the ID, the
      token, the lexer name, the content and its rendering. (The burn text that
      reaches the insert is one `int()` parsed, or the default's own.) */
  predicate Insertable(id: string, req: NewPaste, token: string) {
    Sendable(id) && Sendable(token) && Sendable(req.lexer) && Sendable(req.content) && Sendable(req.rendered)
  }

  /** The request passes every check, the allocation loop finds an ID, and the
      insert under it can be sent: exactly the requests `Create` stores. */
  predicate Accepts(cfg: Config, store: Store, req: NewPaste, rolls: seq<nat>, token: string)
    requires |cfg.alphabet| > 0
  {
    var a := Allocate(store, Routes, cfg.alphabet, cfg.urlLen, rolls);
    && req.content != ""
    && TtlAccepted(cfg, req.ttl)
    && BurnLimit(cfg, req.burn).Some?
    && a.Allocated?
    && Insertable(a.id, req, token)
  }

  /** The row `db_newpaste` writes for an accepted request. */
  function NewRow(req: NewPaste, now: Time, burn: int, token: string): Paste
    requires req.ttl.TtlNumber?
  {
    var st := PasteStats(req.content);
    Paste(token, req.lexer, now + req.ttl.hours * SecondsPerHour, burn,
          req.content, req.rendered, st.size, st.lines, st.sloc)
  }

  /** POST to `/` or `/newpaste`, up to the insert. The checks run in a fixed
      order (empty paste, TTL, burn) and every rejection leaves the store as it
      was; an accepted request gets the first free ID the allocation loop finds,
      and exactly one new row unless the driver refuses the insert. */
  function Create(cfg: Config, store: Store, now: Time, req: NewPaste, rolls: seq<nat>, token: string): (r: Step<CreateOutcome>)
    requires |cfg.alphabet| > 0
    ensures req.content == "" ==> r.outcome == Rejected(EmptyPaste)
    ensures req.content != "" && !TtlAccepted(cfg, req.ttl) ==> r.outcome == Rejected(InvalidTtl)
    ensures req.content != "" && TtlAccepted(cfg, req.ttl) && BurnLimit(cfg, req.burn).None? ==>
              r.outcome == Rejected(InvalidBurnLimit)
    ensures !r.outcome.Created? ==> r.store == store
    ensures var a := Allocate(store, Routes, cfg.alphabet, cfg.urlLen, rolls);
            var checked := req.content != "" && TtlAccepted(cfg, req.ttl) && BurnLimit(cfg, req.burn).Some?;
            && (r.outcome == Rejected(OutOfRandomness) <==> checked && a.Exhausted?)
            && (r.outcome.InsertFailed? <==> checked && a.Allocated? && !Insertable(a.id, req, token))
            && (r.outcome.Created? <==> checked && a.Allocated? && Insertable(a.id, req, token))
    ensures r.outcome.Created? <==> Accepts(cfg, store, req, rolls, token)
    ensures r.outcome.Created? ==>
              var id := r.outcome.id;
              && id == Allocate(store, Routes, cfg.alphabet, cfg.urlLen, rolls).id
              && r.outcome.token == token
              && id !in store
              && !Reserved(Routes, id)
              && |id| >= cfg.urlLen
              && DrawnFrom(id, cfg.alphabet)
              && r.store.Keys == store.Keys + {id}
              && (forall k :: k in store ==> r.store[k] == store[k])
              && r.store[id].content == req.content
              && r.store[id].token == token
              && r.store[id].expiration == now + req.ttl.hours * SecondsPerHour
              && r.store[id].burn == BurnLimit(cfg, req.burn).value
              && r.store[id].lexer == req.lexer
              && r.store[id].rendered == req.rendered
              && LineStats(r.store[id].lines, r.store[id].sloc, r.store[id].size) == PasteStats(req.content)
  {
    if req.content == "" then Step(store, Rejected(EmptyPaste))
    else if !TtlAccepted(cfg, req.ttl) then Step(store, Rejected(InvalidTtl))
    else match BurnLimit(cfg, req.burn)
      case None => Step(store, Rejected(InvalidBurnLimit))
      case Some(burn) =>
        match Allocate(store, Routes, cfg.alphabet, cfg.urlLen, rolls)
        case Exhausted => Step(store, Rejected(OutOfRandomness))
        case Allocated(id, _) =>
          if Insertable(id, req, token) then Step(Insert(store, id, NewRow(req, now, burn, token)), Created(id, token))
          else Step(store, InsertFailed)
  }

  /** Every step keeps the table's IDs sendable: a creation inserts only under
      an ID the driver could send, and the other steps only remove or update. */
  lemma StepsKeepKeysSendable(cfg: Config, store: Store, now: Time, req: NewPaste, rolls: seq<nat>, token: string,
                              id: string, creds: Credentials, linkToken: string)
    requires |cfg.alphabet| > 0
    requires KeysSendable(store)
    ensures KeysSendable(Create(cfg, store, now, req, rolls, token).store)
    ensures KeysSendable(View(store, id, now).store)
    ensures KeysSendable(Delete(store, id, creds).store)
    ensures KeysSendable(DeleteByLink(store, id, linkToken).store)
  {
  }

  /** A successful creation grows the store by exactly one row. */
  lemma CreateAddsOneRow(cfg: Config, store: Store, now: Time, req: NewPaste, rolls: seq<nat>, token: string)
    requires |cfg.alphabet| > 0
    requires Accepts(cfg, store, req, rolls, token)
    ensures |Create(cfg, store, now, req, rolls, token).store| == |store| + 1
  {
    var r := Create(cfg, store, now, req, rolls, token);
    assert r.store.Keys == store.Keys + {r.outcome.id};
    assert |r.store.Keys| == |store.Keys| + 1;
  }

  /** The read path's eviction test: no view left, or expired. A row whose
      expiration is exactly `now` is still live. */
  predicate Gone(p: Paste, now: Time) {
    p.burn == 0 || p.expiration < now
  }

  /** GET of `/<id>` or `/raw/<id>`: a missing ID is not found; a gone row is
      deleted and not found; a live row is served as it was read, and a positive
      burn is decremented by one. */
  function View(store: Store, id: string, now: Time): (r: Step<ViewOutcome>)
    ensures r.outcome.Served? <==> id in store && store[id].burn != 0 && now <= store[id].expiration
    ensures r.outcome.Served? ==>
              && r.outcome.row == store[id]
              && r.store.Keys == store.Keys
              && r.store[id] == store[id].(burn := if store[id].burn > 0 then store[id].burn - 1 else store[id].burn)
    ensures r.outcome.Unavailable? ==> r.store.Keys == store.Keys - {id}
    ensures forall k :: k in store && k != id ==> k in r.store && r.store[k] == store[k]
    ensures forall k :: k in r.store ==> k in store
  {
    match Fetch(store, id)
    case None => Step(store, Unavailable)
    case Some(row) =>
      if Gone(row, now) then Step(Remove(store, id), Unavailable)
      else if row.burn > 0 then Step(Burn(store, id), Served(row))
      else Step(store, Served(row))
  }

  /** The token a DELETE request carries, in its form and in its headers. */
  datatype Credentials = Credentials(formToken: Option<string>, headerToken: Option<string>)

  /** One of the carried tokens equals the stored one, exactly. */
  predicate Presents(creds: Credentials, token: string) {
    creds.formToken == Some(token) || creds.headerToken == Some(token)
  }

  /** DELETE of `/<id>` or `/raw/<id>`: the row goes exactly when a carried token
      matches it; otherwise nothing changes. Expiry and burn play no part. */
  function Delete(store: Store, id: string, creds: Credentials): (r: Step<DeleteOutcome>)
    ensures id !in store ==> r.outcome == Absent
    ensures r.outcome == Deleted <==> id in store && Presents(creds, store[id].token)
    ensures id in store && !Presents(creds, store[id].token) ==> r.outcome == Unauthorized
    ensures r.outcome == Deleted ==> r.store.Keys == store.Keys - {id}
    ensures forall k :: k in store && k != id ==> k in r.store && r.store[k] == store[k]
    ensures r.outcome != Deleted ==> r.store == store
  {
    match Fetch(store, id)
    case None => Step(store, Absent)
    case Some(row) =>
      if creds.formToken.Some? && row.token == creds.formToken.value then Step(Remove(store, id), Deleted)
      else if creds.headerToken.Some? && row.token == creds.headerToken.value then Step(Remove(store, id), Deleted)
      else Step(store, Unauthorized)
  }

  /** GET of `/<id>/<token>`, the one-shot delete link. */
  function DeleteByLink(store: Store, id: string, token: string): (r: Step<DeleteOutcome>)
    ensures id !in store ==> r.outcome == Absent
    ensures r.outcome == Deleted <==> id in store && store[id].token == token
    ensures id in store && store[id].token != token ==> r.outcome == Unauthorized
    ensures r.outcome == Deleted ==> r.store.Keys == store.Keys - {id}
    ensures r.outcome != Deleted ==> r.store == store
  {
    match Fetch(store, id)
    case None => Step(store, Absent)
    case Some(row) =>
      if row.token == token then Step(Remove(store, id), Deleted)
      else Step(store, Unauthorized)
  }

  /** The delete link behaves as a DELETE carrying the token in its form. */
  lemma DeleteByLinkIsFormDelete(store: Store, id: string, token: string, header: Option<string>)
    requires header.None? || (id in store ==> header != Some(store[id].token))
    ensures DeleteByLink(store, id, token) == Delete(store, id, Credentials(Some(token), header))
  {
  }

  /** Successive views of the same ID, one at each of the given times. */
  function ViewAll(store: Store, id: string, times: seq<Time>): (r: Step<seq<ViewOutcome>>)
    ensures |r.outcome| == |times|
  {
    if |times| == 0 then Step(store, [])
    else
      var first := View(store, id, times[0]);
      var rest := ViewAll(first.store, id, times[1..]);
      Step(rest.store, [first.outcome] + rest.outcome)
  }

  /** Burn after reading: a paste with `n >= 0` views left, viewed `n + 1` times
      before it expires, is served exactly `n` times, with burns `n, n - 1, ...,
      1`, and the next view finds it gone and deletes it. Nothing else changes. */
  lemma {:induction false} BurnCountdown(store: Store, id: string, times: seq<Time>)
    requires id in store && store[id].burn >= 0
    requires |times| == store[id].burn + 1
    requires forall i :: 0 <= i < |times| ==> times[i] <= store[id].expiration
    ensures var r := ViewAll(store, id, times);
            && (forall i :: 0 <= i < |times| - 1 ==>
                  && r.outcome[i].Served?
                  && r.outcome[i].row == store[id].(burn := store[id].burn - i))
            && r.outcome[|times| - 1] == Unavailable
            && r.store == store - {id}
  {
    var first := View(store, id, times[0]);
    var rest := ViewAll(first.store, id, times[1..]);
    if store[id].burn == 0 {
      assert first.store == store - {id};
    } else {
      BurnCountdown(first.store, id, times[1..]);
      assert first.store - {id} == store - {id};
      var r := ViewAll(store, id, times);
      forall i | 0 <= i < |times| - 1
        ensures r.outcome[i].Served? && r.outcome[i].row == store[id].(burn := store[id].burn - i)
      {
        if i > 0 {
          assert r.outcome[i] == rest.outcome[i - 1];
        }
      }
    }
  }

  /** A paste without a view limit is served by every view before it expires,
      and viewing it changes nothing. */
  lemma {:induction false} UnlimitedNeverBurns(store: Store, id: string, times: seq<Time>)
    requires id in store && store[id].burn < 0
    requires forall i :: 0 <= i < |times| ==> times[i] <= store[id].expiration
    ensures var r := ViewAll(store, id, times);
            && (forall i :: 0 <= i < |times| ==> r.outcome[i] == Served(store[id]))
            && r.store == store
  {
    if |times| > 0 {
      var first := View(store, id, times[0]);
      assert first.store == store;
      UnlimitedNeverBurns(store, id, times[1..]);
      var r := ViewAll(store, id, times);
      forall i | 0 <= i < |times|
        ensures r.outcome[i] == Served(store[id])
      {
        if i > 0 {
          assert r.outcome[i] == ViewAll(store, id, times[1..]).outcome[i - 1];
        }
      }
    }
  }

  /** Creating a paste and reading it back before it expires returns the
      submitted text, unless the stored burn is 0 (then the read evicts it). */
  lemma CreateThenView(cfg: Config, store: Store, now: Time, req: NewPaste, rolls: seq<nat>, token: string, later: Time)
    requires |cfg.alphabet| > 0
    requires Accepts(cfg, store, req, rolls, token)
    requires later <= now + req.ttl.hours * SecondsPerHour
    ensures var c := Create(cfg, store, now, req, rolls, token);
            var v := View(c.store, c.outcome.id, later);
            && (v.outcome.Served? <==> BurnLimit(cfg, req.burn).value != 0)
            && (v.outcome.Served? ==> v.outcome.row.content == req.content)
  {
  }

  /** Once an ID has no row, reading or deleting it never brings one back. */
  lemma GoneIsTerminal(store: Store, id: string, now: Time, creds: Credentials, token: string)
    requires id !in store
    ensures View(store, id, now) == Step(store, Unavailable)
    ensures Delete(store, id, creds) == Step(store, Absent)
    ensures DeleteByLink(store, id, token) == Step(store, Absent)
  {
  }
}

=== FILE: store.dfy ===
/**
 The `pastes` table as an immutable map from paste ID to row, and the four
 single-statement helpers of app.py that touch it (`db_newpaste`,
 `db_getpaste`, `db_deletepaste`, `db_burn`).
 */
module PasteStore {

  /** A point in time, in seconds on the UTC clock `datetime.utcnow()` reads. */
  type Time = real

  const SecondsPerHour: real := 3600.0

  /** Absent when no row matches, like `cur.fetchone()` returning `None`. */
  datatype Option<T> = None | Some(value: T)

  /** One row of `pastes`, keyed by its `pasteid`. A negative `burn` means no view
      limit; `0` means no view is left. `lexer` and `rendered` (`paste_lexed`) are
      the highlighter's opaque output. */
  datatype Paste = Paste(
    token: string,
    lexer: string,
    expiration: Time,
    burn: int,
    content: string,
    rendered: string,
    size: nat,
    lines: nat,
    sloc: nat)

  type Store = map<string, Paste>

  /** Whether a string can be passed to a statement at all: PostgreSQL's `text`
      cannot hold U+0000, and psycopg2 refuses to send a string parameter that
      contains it, so the statement raises before it reaches the table. */
  predicate Sendable(s: string) {
    '\0' !in s
  }

  /** What every stored table satisfies: each of its IDs was sent once by an
      insert, so each can be sent again. */
  predicate KeysSendable(store: Store) {
    forall k :: k in store ==> Sendable(k)
  }

  /** `db_getpaste`: the row with this ID, if any. */
  function Fetch(store: Store, id: string): (r: Option<Paste>)
    ensures r.Some? <==> id in store
    ensures r.Some? ==> r.value == store[id]
  {
    if id in store then Some(store[id]) else None
  }

  /** `db_deletepaste`: removes the row with this ID, if any; the statement
      matches no row otherwise. */
  function Remove(store: Store, id: string): (r: Store)
    ensures r.Keys == store.Keys - {id}
    ensures forall k :: k in r ==> r[k] == store[k]
  {
    store - {id}
  }

  /** `db_burn`: `burn = burn - 1` on the row with this ID, if any. */
  function Burn(store: Store, id: string): (r: Store)
    ensures r.Keys == store.Keys
    ensures id in store ==> r[id] == store[id].(burn := store[id].burn - 1)
    ensures forall k :: k in store && k != id ==> r[k] == store[k]
  {
    if id in store then store[id := store[id].(burn := store[id].burn - 1)] else store
  }

  /** `db_newpaste`'s INSERT, for an ID the allocator found free. */
  function Insert(store: Store, id: string, row: Paste): (r: Store)
    requires id !in store
    ensures r.Keys == store.Keys + {id}
    ensures |r| == |store| + 1
    ensures r[id] == row
    ensures forall k :: k in store ==> r[k] == store[k]
  {
    store[id := row]
  }
}

=== FILE: sweeper.dfy ===
/**
 The expiry sweep of gc.py: one `DELETE FROM pastes WHERE expiration < now`,
 which removes expired rows whatever their burn and whether or not they were
 ever viewed.
 */
module Sweeper {
  import opened PasteStore

  /** The IDs of rows strictly past their expiration at `now`. */
  function Expired(store: Store, now: Time): set<string> {
    set id | id in store && store[id].expiration < now
  }

  /** The sweep: afterwards no expired row remains, every other row is kept
      unchanged (a row expiring exactly at `now` included), and nothing is added. */
  function Sweep(store: Store, now: Time): (r: Store)
    ensures forall id :: id in r ==> now <= r[id].expiration
    ensures forall id :: id in store && now <= store[id].expiration ==> id in r && r[id] == store[id]
    ensures forall id :: id in r ==> id in store && r[id] == store[id]
  {
    map id | id in store && !(store[id].expiration < now) :: store[id]
  }

  /** The rows removed are exactly the expired ones, so the store shrinks by
      their number. */
  lemma SweepRemovesExpired(store: Store, now: Time)
    ensures Sweep(store, now).Keys == store.Keys - Expired(store, now)
    ensures |Sweep(store, now)| == |store| - |Expired(store, now)|
  {
    var kept := Sweep(store, now).Keys;
    var gone := Expired(store, now);
    assert kept == store.Keys - gone;
    assert gone <= store.Keys;
    assert store.Keys == kept + gone;
    assert kept !! gone;
    assert |store.Keys| == |kept| + |gone|;
  }

  /** A later sweep subsumes an earlier one. */
  lemma SweepLater(store: Store, t1: Time, t2: Time)
    requires t1 <= t2
    ensures Sweep(Sweep(store, t1), t2) == Sweep(store, t2)
  {
    var a := Sweep(Sweep(store, t1), t2);
    var b := Sweep(store, t2);
    assert a.Keys == b.Keys;
  }

  /** Sweeping twice at the same instant is sweeping once. */
  lemma SweepIdempotent(store: Store, now: Time)
    ensures Sweep(Sweep(store, now), now) == Sweep(store, now)
  {
    SweepLater(store, now, now);
  }

  /** With nothing expired, the sweep changes nothing. */
  lemma SweepNothingExpired(store: Store, now: Time)
    requires Expired(store, now) == {}
    ensures Sweep(store, now) == store
  {
    assert forall id :: id in store ==> id !in Expired(store, now);
    assert Sweep(store, now).Keys == store.Keys;
  }
}

=== FILE: text.dfy ===
/**
 Line statistics of a paste (`paste_stats` in app.py): the number of lines,
 the number of source lines (lines that are not blank) and the UTF-8 size.

 A line is a segment of `text.split("\n")`; a line is blank when Python's
 `strip()` leaves nothing of it.
 */
module PasteText {

  /** Python's `str.isspace()` for a single character: the ASCII controls
      TAB..CR and FS..US, SPACE, NEL, NBSP and the Unicode space separators. */
  predicate IsSpace(c: char) {
    var n := c as int;
    || n == 0x20
    || 0x09 <= n <= 0x0D
    || 0x1C <= n <= 0x1F
    || n == 0x85
    || n == 0xA0
    || n == 0x1680
    || 0x2000 <= n <= 0x200A
    || n == 0x2028
    || n == 0x2029
    || n == 0x202F
    || n == 0x205F
    || n == 0x3000
  }

  /** Every character of `s` is whitespace (vacuously true of ""). */
  predicate AllSpace(s: string) {
    forall i :: 0 <= i < |s| ==> IsSpace(s[i])
  }

  /** `s.lstrip()`: drops the maximal run of leading whitespace. */
  function TrimLeft(s: string): (r: string)
    ensures |r| <= |s| && r == s[|s| - |r|..]
    ensures AllSpace(s[..|s| - |r|])
    ensures |r| == 0 || !IsSpace(r[0])
  {
    if |s| > 0 && IsSpace(s[0]) then TrimLeft(s[1..]) else s
  }

  /** `s.rstrip()`: drops the maximal run of trailing whitespace. */
  function TrimRight(s: string): (r: string)
    ensures |r| <= |s| && r == s[..|r|]
    ensures AllSpace(s[|r|..])
    ensures |r| == 0 || !IsSpace(r[|r| - 1])
  {
    if |s| > 0 && IsSpace(s[|s| - 1]) then TrimRight(s[..|s| - 1]) else s
  }

  /** `s.strip()`. */
  function Strip(s: string): string {
    TrimRight(TrimLeft(s))
  }

  /** `not line.strip()` holds exactly of the lines made only of whitespace. */
  lemma StripEmptyIffAllSpace(s: string)
    ensures Strip(s) == "" <==> AllSpace(s)
  {
    var t := TrimLeft(s);
    if Strip(s) == "" {
      // rstrip leaves nothing, so `t` is all whitespace; lstrip never leaves a
      // leading space, so `t` is empty and lstrip consumed all of `s`.
      assert t[0..] == t;
      assert s[..|s|] == s;
    }
  }

  /** Number of occurrences of `c` in `s`. */
  function CountChar(s: string, c: char): nat {
    if |s| == 0 then 0 else (if s[0] == c then 1 else 0) + CountChar(s[1..], c)
  }

  /** `s.split("\n")`: the segments between newline characters, in order. */
  function Split(s: string): (parts: seq<string>)
    ensures |parts| >= 1
    ensures forall i :: 0 <= i < |parts| ==> '\n' !in parts[i]
  {
    if |s| == 0 then [""]
    else
      var rest := Split(s[1..]);
      if s[0] == '\n' then [""] + rest
      else [[s[0]] + rest[0]] + rest[1..]
  }

  /** `"\n".join(parts)`. */
  function Join(parts: seq<string>): string {
    if |parts| == 0 then ""
    else if |parts| == 1 then parts[0]
    else parts[0] + "\n" + Join(parts[1..])
  }

  /** Splitting at newlines and joining with newlines gives back the text. */
  lemma {:induction false} JoinSplit(s: string)
    ensures Join(Split(s)) == s
  {
    if |s| == 0 {
    } else {
      var rest := Split(s[1..]);
      JoinSplit(s[1..]);
      if s[0] == '\n' {
        assert Split(s) == [""] + rest;
        assert ([""] + rest)[1..] == rest;
        assert Join(Split(s)) == "" + "\n" + Join(rest);
        assert s == [s[0]] + s[1..];
      } else if |rest| == 1 {
        assert Split(s) == [[s[0]] + rest[0]];
        assert s == [s[0]] + s[1..];
      } else {
        var parts := [[s[0]] + rest[0]] + rest[1..];
        assert parts[1..] == rest[1..];
        assert Join(rest) == rest[0] + "\n" + Join(rest[1..]);
        assert Join(parts) == [s[0]] + rest[0] + "\n" + Join(rest[1..]);
        assert s == [s[0]] + s[1..];
      }
    }
  }

  /** Splitting a text with a leading newline-free segment `a`. */
  lemma {:induction false} SplitCons(a: string, b: string)
    requires '\n' !in a
    ensures Split(a + "\n" + b) == [a] + Split(b)
  {
    var s := a + "\n" + b;
    if |a| == 0 {
      assert s == "\n" + b;
      assert s[1..] == b;
    } else {
      assert s[1..] == a[1..] + "\n" + b;
      SplitCons(a[1..], b);
      assert [a[0]] + a[1..] == a;
    }
  }

  /** A newline-free text is a single segment. */
  lemma {:induction false} SplitSingle(a: string)
    requires '\n' !in a
    ensures Split(a) == [a]
  {
    if |a| > 0 {
      SplitSingle(a[1..]);
      assert [a[0]] + a[1..] == a;
    }
  }

  /** Joining newline-free segments and splitting again gives back the segments. */
  lemma {:induction false} SplitJoin(parts: seq<string>)
    requires |parts| >= 1
    requires forall i :: 0 <= i < |parts| ==> '\n' !in parts[i]
    ensures Split(Join(parts)) == parts
  {
    if |parts| == 1 {
      SplitSingle(parts[0]);
    } else {
      SplitJoin(parts[1..]);
      SplitCons(parts[0], Join(parts[1..]));
      assert [parts[0]] + parts[1..] == parts;
    }
  }

  /** `len(text.split("\n"))` is the number of newlines plus one. */
  lemma {:induction false} SplitLength(s: string)
    ensures |Split(s)| == CountChar(s, '\n') + 1
  {
    if |s| > 0 {
      SplitLength(s[1..]);
    }
  }

  /** Number of segments whose `strip()` is empty, as the loop of `paste_stats` counts them. */
  function StrippedEmptyCount(parts: seq<string>): (n: nat)
    ensures n <= |parts|
  {
    if |parts| == 0 then 0
    else StrippedEmptyCount(parts[..|parts| - 1]) + (if Strip(parts[|parts| - 1]) == "" then 1 else 0)
  }

  /** Number of segments holding some non-whitespace character. */
  function NonBlankCount(parts: seq<string>): nat {
    if |parts| == 0 then 0
    else (if AllSpace(parts[0]) then 0 else 1) + NonBlankCount(parts[1..])
  }

  /** Lines minus stripped-empty lines is the number of lines with content. */
  lemma {:induction false} SlocIsNonBlank(parts: seq<string>)
    ensures |parts| - StrippedEmptyCount(parts) == NonBlankCount(parts)
  {
    if |parts| > 0 {
      var init := parts[..|parts| - 1];
      SlocIsNonBlank(init);
      StripEmptyIffAllSpace(parts[|parts| - 1]);
      NonBlankSnoc(init, parts[|parts| - 1]);
      assert init + [parts[|parts| - 1]] == parts;
    }
  }

  lemma {:induction false} NonBlankSnoc(parts: seq<string>, p: string)
    ensures NonBlankCount(parts + [p]) == NonBlankCount(parts) + (if AllSpace(p) then 0 else 1)
  {
    if |parts| == 0 {
      assert [p][1..] == [];
    } else {
      assert (parts + [p])[1..] == parts[1..] + [p];
      NonBlankSnoc(parts[1..], p);
    }
  }

  /** Bytes UTF-8 needs for one Unicode scalar value, by the code point ranges
      of section 3 of RFC 3629. */
  function Utf8Width(c: char): (w: nat)
    ensures 1 <= w <= 4
    ensures w == 1 <==> (c as int) < 0x80
    ensures w == 2 <==> 0x80 <= (c as int) < 0x800
    ensures w == 3 <==> 0x800 <= (c as int) < 0x10000
    ensures w == 4 <==> 0x10000 <= (c as int)
  {
    if (c as int) < 0x80 then 1
    else if (c as int) < 0x800 then 2
    else if (c as int) < 0x10000 then 3
    else 4
  }

  /** `len(text.encode("utf-8"))`: the sum of the per-character widths. */
  function Utf8Length(s: string): nat {
    if |s| == 0 then 0 else Utf8Width(s[0]) + Utf8Length(s[1..])
  }

  /** The UTF-8 size lies between one and four bytes per character, and equals the
      character count exactly when the text is ASCII. */
  lemma {:induction false} Utf8LengthBounds(s: string)
    ensures |s| <= Utf8Length(s) <= 4 * |s|
    ensures Utf8Length(s) == |s| <==> forall i :: 0 <= i < |s| ==> (s[i] as int) < 0x80
  {
    if |s| > 0 {
      Utf8LengthBounds(s[1..]);
      assert forall i :: 1 <= i < |s| ==> s[i] == s[1..][i - 1];
    }
  }

  /** The three statistics stored with a paste. */
  datatype LineStats = LineStats(lines: nat, sloc: nat, size: nat)

  /** `paste_stats(text)`: `lines` counts the newline-separated segments, `sloc` starts
      at `lines` and loses one per segment whose `strip()` is empty, `size` is the
      UTF-8 byte length. */
  function PasteStats(text: string): (st: LineStats)
    ensures st.lines == CountChar(text, '\n') + 1
    ensures st.sloc == NonBlankCount(Split(text))
    ensures st.sloc <= st.lines
    ensures st.size == Utf8Length(text)
    ensures |text| <= st.size <= 4 * |text|
    ensures text == "" ==> st == LineStats(1, 0, 0)
  {
    var parts := Split(text);
    SplitLength(text);
    SlocIsNonBlank(parts);
    Utf8LengthBounds(text);
    LineStats(|parts|, |parts| - StrippedEmptyCount(parts), Utf8Length(text))
  }
}
